=== FILE: README.md ===
# Pomodoro timer: state model

A Dafny model of the state logic of a browser pomodoro timer
(`src/script.js`). The app counts down a work session (25 minutes by
default) or a break (5 minutes), counts finished work sessions as
pomodoros, and keeps a small task list and a light/dark theme. Every
handler of the script is modelled as a pure function from the state before
the event to the state after it. Rendering, the interval timer and the
browser APIs are left out.

- `Tasks` (`Tasks.dfy`) models the task list. `Trim` is
  `String.prototype.trim` over the ECMA-262 whitespace and line-terminator
  characters. `Add` appends a task with the trimmed text unless that text is
  empty. `ToggleCompletion` and `Delete` act on the first task with the
  given id, as `find` and `findIndex` do.
- `Display` (`Display.dfy`) models the `MM:SS` read-out.
  - `DecimalString` is `toString`, `PadStart` is `padStart`, and `Clock`
    joins minutes and seconds.
  - `ParseClock` reads a read-out back. It exists to state that the
    read-out loses no information.
  - `Warning` is the `timer-warning` class.
- `Pomodoro` (`Pomodoro.dfy`) models the module-level variables as one
  `AppState`, and the timer handlers `toggleTimer`, `resetTimer`,
  `changeSession`, `adjustWorkLength`, `adjustBreakLength` and `updateTimer`
  (`Tick`).
  - The invariant `Valid` says both lengths are within their bounds and the
    countdown is between 0 and the active session's length. Every handler
    preserves it.
  - `View` is what `updateTimerDisplay` shows.
- `Optional` (`Optional.dfy`) holds the one `Option` type the other
  modules share.
- `Session` (`Session.dfy`) models the app as an event machine.
  - Every timer and task control and every firing of the one-second interval
    is an `Event`. The theme button is not one; `Theme.Toggle` models it.
  - `Run` folds a sequence of events.
  - The interval exists exactly while the timer runs, because
    `toggleTimer` creates and clears it and `resetTimer` clears it. So a
    `Second` event reaches `updateTimer` only while running.
- `Theme` (`Theme.dfy`) models the start-up theme choice from storage and
  the system preference, and the theme toggle.

Three behaviours of the code are easy to misread:

- **The timer stops at a session boundary.** `updateTimer` ends a session by
  calling `changeSession()`, and `changeSession` stops a running timer
  through `toggleTimer` before it switches (lines 118 and 183). So the next
  session starts idle. It does not continue counting down on its own.
- **The switch happens one tick after the read-out reaches `00:00`.** A
  tick that finds the countdown above 0 only decrements it. The boundary is
  handled by the next tick, which finds it at 0. From the initial state
  the first pomodoro is therefore counted on tick 1501
  (`Session.FirstPomodoro`).
- **The direction has no effect.** The session buttons pass a direction of
  -1 or +1 to `changeSession`, which never reads it.

## Model

| member | source | states |
|---|---|---|
| Tasks.Trim | src/script.js:189 | The trimmed text is empty exactly when the input is all whitespace. Otherwise it starts and ends with a non-whitespace character. It is a contiguous run of the input with only whitespace before and after it. |
| Tasks.TrimIdempotent | src/script.js:189 | Trimming an already trimmed text changes nothing. |
| Tasks.FindFirst | src/script.js:227 | The lookup fails exactly when no task has the id. When it succeeds, it gives the position of a task with the id and no earlier task has it, as `find`/`findIndex` do. |
| Tasks.Add | src/script.js:188-203 | The list is unchanged exactly when the text is all whitespace. Otherwise one task is appended after the unchanged old list. It has the given id, the trimmed (non-empty) text, and is not completed. |
| Tasks.ToggleCompletion | src/script.js:226-232 | The length is kept, and every task keeps its id and text. `completed` flips for exactly the first task with the id. An unknown id changes nothing. |
| Tasks.ToggleInvolution | src/script.js:226-232 | Toggling the same id twice restores the list. |
| Tasks.Delete | src/script.js:235-245 | An unknown id leaves the list unchanged. Otherwise the list is one shorter: the tasks before the first match are kept in place, and the ones after it shift down by one. |
| Tasks.DeleteRemovesOne | src/script.js:236-238 | As a multiset, the new list plus the removed task is the old list. Exactly one task is removed, and it is the one with the id. |
| Tasks.AddThenDelete | src/script.js:188-245 | Adding a task under a fresh id and then deleting that id gives back the original list, including when the add was rejected. |
| Display.DecimalString | src/script.js:159 | `toString` of a non-negative integer is a non-empty digit string with no leading zero unless the number is 0. It is one character exactly when the number is below 10, and at most two when it is below 100. |
| Display.DecimalRoundTrip | src/script.js:159 | Reading the digits of `toString` back gives the number. |
| Display.PadStart | src/script.js:159 | `padStart` gives length max(length, width). The original text is the suffix, and everything before it is the fill character. |
| Display.TwoDigits | src/script.js:159 | `n.toString().padStart(2, '0')` is at least two characters, and exactly two below 100. It is all digits and still denotes `n`; the leading zeros do not change its value. |
| Display.SplitMinutes | src/script.js:157-158 | Whole minutes times 60 plus the remaining seconds is the total, and the seconds are below 60. |
| Display.Join | src/script.js:159 | The `MM:SS` text is at least five characters. When the seconds field is below 100, the colon is third from the end. It is exactly five characters when both fields are below 100. |
| Display.ClockLength | src/script.js:156-159 | The read-out of any remaining time has its colon third from the end. Below 100 minutes it is exactly `MM:SS`. |
| Display.Clock | src/script.js:156-159 | The `MM:SS` text for `t` remaining seconds parses back to `t`, so the read-out loses no information. |
| Display.ClockInjective | src/script.js:156-159 | Two different remaining times never show the same text. |
| Display.Warning | src/script.js:161-166 | For a non-negative countdown, the warning class is set exactly when the time the text shows is at most 10 seconds. |
| Pomodoro.Initial | src/script.js:40-46 | The page starts idle in a valid work session with 25 minutes of work and 5 of break, the countdown at its full 1500 seconds, no pomodoros and no tasks. |
| Pomodoro.Clamp | src/script.js:133 | `Math.max(lo, Math.min(hi, v))` lies in [lo, hi]. It is `v` when `v` is in range, `lo` below the range and `hi` above it. |
| Pomodoro.ToggleTimer | src/script.js:90-100 | The running flag flips, nothing else changes, and validity is kept. |
| Pomodoro.ToggleTimerTwice | src/script.js:90-100 | Starting and then stopping (or the reverse) restores the state. |
| Pomodoro.ResetTimer | src/script.js:103-113 | From any state, the result is an idle work session at the full work length. Lengths, count and tasks are kept, and validity is kept. |
| Pomodoro.ChangeSession | src/script.js:116-127 | The timer ends up stopped and the session kind flips. The countdown is the new kind's full length. Lengths, count and tasks are kept, and validity is kept. |
| Pomodoro.ChangeSessionIgnoresDirection | src/script.js:116-127 | Any two directions give the same result. |
| Pomodoro.ChangeSessionTwice | src/script.js:116-127 | Switching twice returns to the original kind, idle and at full length. From a work session, that is exactly what reset gives. |
| Pomodoro.AdjustWorkLength | src/script.js:130-140 | While running, nothing changes. Otherwise the work length becomes the clamped sum, in [1, 60]. In a work session the countdown restarts at the new length. Nothing else changes, and validity is kept. |
| Pomodoro.AdjustWorkUndo | src/script.js:130-140 | An in-range adjustment is undone by the opposite one. From a full-length session the whole state comes back. |
| Pomodoro.AdjustBreakLength | src/script.js:143-153 | While running, nothing changes. Otherwise the break length becomes the clamped sum, in [1, 30]. In a break the countdown restarts at the new length. Nothing else changes, and validity is kept. |
| Pomodoro.AdjustBreakUndo | src/script.js:143-153 | An in-range adjustment is undone by the opposite one. From a full-length break the whole state comes back. |
| Pomodoro.Tick | src/script.js:170-185 | Above 0, a tick takes one second off and changes nothing else. At 0 it is the boundary: the timer stops and the kind flips. The countdown becomes the new kind's full length, and the count grows by one exactly when a work session ended. Lengths and tasks are kept, and validity is kept. |
| Pomodoro.View | src/script.js:156-167 | The displayed text parses back to the remaining seconds. The warning is set exactly at 10 seconds or fewer. Up to an hour the text is five characters. |
| Pomodoro.InitialReadout | src/script.js:42-51 | The page opens showing `25:00` without the warning. |
| Pomodoro.ResetClearsWarning | src/script.js:103-113 | After a reset of a valid state the warning is off. This matches the explicit class removal. |
| Session.Step | src/script.js:62-100 | One event keeps validity. A second while stopped is not delivered. Task events change only the list, and other events never touch it. The count grows by one exactly at the boundary tick of a work session. |
| Session.NoticeOf | src/script.js:174-183 | A notification is raised only at a boundary, and it is followed by a stop and a switch to the other kind. A tick without a notice keeps the kind. A pomodoro is counted exactly when the end-of-work notification is raised; otherwise the count is unchanged. A notice is raised exactly on the tick that finds a running countdown at 0, and it is the end-of-work notice exactly when the ending session is a work session. |
| Session.RunPreservesValid | src/script.js:89-185 | No sequence of events from a valid state breaks the invariant. |
| Session.ReachableIsValid | src/script.js:39-46 | Every state reachable from page load is valid. In particular, the countdown is never negative and the lengths stay in their bounds. |
| Session.CountNeverDecreases | src/script.js:178-181 | The pomodoro count never goes down. |
| Session.CountDown | src/script.js:170-173 | While at least `n` seconds remain, `n` ticks take exactly `n` seconds off and change nothing else. |
| Session.StoppedIgnoresSeconds | src/script.js:90-98 | A stopped timer is unaffected by any number of seconds. |
| Session.SessionBoundary | src/script.js:170-185 | From a running session with `t` seconds left, `t` ticks reach 0 with nothing else changed. Tick `t + 1` stops the timer and flips the kind at its full length. It counts a pomodoro exactly if a work session ended, and keeps lengths and tasks. |
| Session.StopsAtBoundary | src/script.js:116-118 | After the boundary, further seconds change nothing, because the timer was stopped. |
| Session.FirstPomodoro | src/script.js:40-46 | From page load plus a start, 1500 seconds show `00:00` still in the work session with no pomodoro. The next second gives an idle 5-minute break and one pomodoro. |
| Theme.Toggle | src/script.js:258-266 | The mode flips. The stored value is `dark` or `light`, and it is `dark` exactly when the new mode is dark. |
| Theme.StartsDark | src/script.js:53-56 | A stored `dark` starts dark. Any other stored non-empty value starts light. With nothing stored, or an empty string, the system preference decides. |
| Theme.ToggleTwice | src/script.js:258-266 | Toggling twice gives the original mode. |
| Theme.SavedModeRestored | src/script.js:262-266 | The value a toggle stores is what the next start-up restores, whatever the system preference. |

## Left out

- Rendering is left out: DOM text, icons, button classes, the per-task markup, the "no tasks" placeholder row, the tomato icons of `updateCompletedPomodoros`, and the `dark` class toggled on task items. Apart from the task text described on the next line, it does not feed back into the state.
- Task text is treated as inert text. `renderTasks` (lines 215-216) puts it into `innerHTML` unescaped, and `deleteTask` and `toggleTaskCompletion` are exported on `window` (lines 273-274). So a task whose text is markup with an event handler can call them when it is rendered and change the list. The model's list changes only through the modelled handlers, because what the browser does with the markup is outside the model.
- The interval timer is left out as an object. `setInterval` and `clearInterval` are replaced by the rule that a `Second` event reaches `updateTimer` only while the timer runs (`Session.Step`). This matches the code, where at most one interval exists and it exists exactly while `isRunning` is true.
- `showNotification` (lines 22-36) is left out: the permission check, the asynchronous permission request and the `Notification` call. The model records only which notice a boundary raises (`Session.NoticeOf`). Whether a notification appears depends on browser permission. When the call returns, it has no effect on the state; the case where it throws is described under `Pomodoro.Tick` below.
- The browser values are parameters: `localStorage` and `matchMedia` become arguments of `Theme.StartsDark`, and the `Date.now()` task id becomes an argument of `Tasks.Add`. Clock time and storage are outside the model.
- Event registration (`addEventListeners`), `console.log`, the `window` exports and the `DOMContentLoaded` hook are not modelled. `Session.Event` stands for the timer and task events they wire up. The theme click (line 86) is not a `Session.Event`; `Theme.Toggle` models it, apart from `AppState`, because the theme changes only how tasks are drawn, never the timer state or the task list.
- Pomodoro.Tick: assumes the `showNotification` call at line 176 returns normally. When it throws, `updateTimer` stops at that line, before the count (lines 178-181) and before `changeSession()` (line 183). It throws, for example, when the browser has no `Notification` global (line 24), or when `new Notification` is refused (line 25, as on browsers that allow notifications only from a service worker). The interval keeps firing, so the app then stays running at `00:00`, never counts the pomodoro, and throws again every second. The model's boundary tick always counts and switches (`Session.SessionBoundary` rests on this too), because what the browser's notification API does is outside the model.
- Pomodoro.Tick: the code calls `changeSession()` with no argument. The model passes 0 instead, which makes no difference because the direction is never read (`Pomodoro.ChangeSessionIgnoresDirection`).
- Pomodoro.View: it is defined only for a non-negative countdown. `Math.floor` and `%` of a negative count are not modelled, because no reachable state has one (`Session.ReachableIsValid`).
- Numbers are modelled as unbounded integers. The script's doubles are exact for every value a reachable state holds: lengths of at most 60 minutes, and a count that grows by one per work session.

=== FILE: Display.dfy ===
/**
  The countdown read-out of `updateTimerDisplay`: the remaining seconds as
  `MM:SS`, each half written in decimal and left-padded with '0' to two
  characters, and the warning flag for the last ten seconds.
 */
module Display {

  import opened Optional

  predicate IsDigit(c: char) {
    '0' <= c <= '9'
  }

  predicate AllDigits(s: string) {
    forall i :: 0 <= i < |s| ==> IsDigit(s[i])
  }

  function DigitChar(d: nat): (c: char)
    requires d < 10
    ensures IsDigit(c)
  {
    ('0' as int + d) as char
  }

  function DigitValue(c: char): (d: nat)
    requires IsDigit(c)
    ensures d < 10
  {
    c as int - '0' as int
  }

  /** `Number.prototype.toString()` of a non-negative integer: its decimal
      digits, most significant first, without leading zeros. */
  function DecimalString(n: nat): (r: string)
    ensures |r| >= 1 && AllDigits(r)
    ensures |r| == 1 <==> n < 10
    ensures n < 100 ==> |r| <= 2
    ensures n > 0 ==> r[0] != '0'
    decreases n
  {
    if n < 10 then [DigitChar(n)] else DecimalString(n / 10) + [DigitChar(n % 10)]
  }

  /** The number a string of decimal digits denotes. */
  function DecimalValue(s: string): nat
    requires AllDigits(s)
  {
    if s == [] then 0 else DecimalValue(s[..|s| - 1]) * 10 + DigitValue(s[|s| - 1])
  }

  /** Reading back the decimal digits of `n` gives `n`. */
  lemma {:induction false} DecimalRoundTrip(n: nat)
    ensures DecimalValue(DecimalString(n)) == n
    decreases n
  {
    if n >= 10 {
      var r := DecimalString(n);
      assert r[..|r| - 1] == DecimalString(n / 10);
      DecimalRoundTrip(n / 10);
    }
  }

  /** Leading zeros do not change the value of a digit string. */
  lemma {:induction false} LeadingZeros(z: string, s: string)
    requires forall i :: 0 <= i < |z| ==> z[i] == '0'
    requires AllDigits(s)
    ensures AllDigits(z + s) && DecimalValue(z + s) == DecimalValue(s)
    decreases |z| + |s|
  {
    if s == [] {
      assert z + s == z;
      if z != [] {
        LeadingZeros(z[..|z| - 1], []);
        assert z[..|z| - 1] + [] == z[..|z| - 1];
      }
    } else {
      assert (z + s)[..|z + s| - 1] == z + s[..|s| - 1];
      LeadingZeros(z, s[..|s| - 1]);
    }
  }

  /** `String.prototype.padStart(width, fill)`: `s` preceded by as many
      `fill` characters as it lacks to reach `width`. */
  function PadStart(s: string, width: nat, fill: char): (r: string)
    ensures |r| == if |s| >= width then |s| else width
    ensures r[|r| - |s|..] == s
    ensures forall i :: 0 <= i < |r| - |s| ==> r[i] == fill
  {
    if |s| >= width then s else seq(width - |s|, _ => fill) + s
  }

  /** `n.toString().padStart(2, '0')`: at least two digits, exactly two
      below 100, still denoting `n`. */
  function TwoDigits(n: nat): (r: string)
    ensures |r| >= 2
    ensures n < 100 ==> |r| == 2
    ensures AllDigits(r) && DecimalValue(r) == n
  {
    var d := DecimalString(n);
    var r := PadStart(d, 2, '0');
    var z := r[..|r| - |d|];
    assert r == z + d;
    LeadingZeros(z, d);
    DecimalRoundTrip(n);
    r
  }

  /** `Math.floor(t / 60)` and `t % 60` split `t` into whole minutes and
      the seconds left over. It only records, for a non-negative `t`, the
      split that `Clock` and `ClockLength` rely on. */
  lemma SplitMinutes(t: nat)
    ensures t == (t / 60) * 60 + t % 60 && 0 <= t % 60 < 60
  {
  }

  /** Minutes and seconds, each as two or more digits, around a colon. */
  function Join(m: nat, sec: nat): (r: string)
    ensures |r| >= 5
    ensures sec < 100 ==> r[|r| - 3] == ':'
    ensures m < 100 && sec < 100 ==> |r| == 5
  {
    var mm, ss := TwoDigits(m), TwoDigits(sec);
    assert |mm| >= 2 && |ss| >= 2;
    var r := mm + ":" + ss;
    assert |r| == |mm| + 1 + |ss| && r[|mm|] == ':';
    r
  }

  /** The text `updateTimerDisplay` writes for `t` remaining seconds. It
      determines `t`: parsing it back recovers the remaining time. */
  function Clock(t: nat): (r: string)
    ensures ParseClock(r).Some? && ParseClock(r).value == t
  {
    SplitMinutes(t);
    ReadBack(t / 60, t % 60);
    Join(t / 60, t % 60)
  }

  /** Up to 99:59 the read-out is five characters, `MM:SS`. */
  lemma ClockLength(t: nat)
    ensures |Clock(t)| >= 5 && Clock(t)[|Clock(t)| - 3] == ':'
    ensures t < 6000 ==> |Clock(t)| == 5
  {
    SplitMinutes(t);
  }

  /** Reads an `M..M:SS` text back into seconds; None for any text that is
      not minutes, a colon and two digits of seconds below 60. */
  function ParseClock(text: string): Option<nat> {
    if |text| >= 4 && text[|text| - 3] == ':'
    then ParseFields(text[..|text| - 3], text[|text| - 2..])
    else None
  }

  function ParseFields(mm: string, ss: string): Option<nat> {
    if AllDigits(mm) && AllDigits(ss) && DecimalValue(ss) < 60
    then Some(DecimalValue(mm) * 60 + DecimalValue(ss))
    else None
  }

  /** A text assembled from two fields around a colon splits back into them. */
  lemma ParseJoined(mm: string, ss: string)
    requires |mm| >= 1 && |ss| == 2
    ensures ParseClock(mm + ":" + ss) == ParseFields(mm, ss)
  {
    var text := mm + ":" + ss;
    assert text[..|text| - 3] == mm;
    assert text[|text| - 2..] == ss;
  }

  /** Minutes and seconds below 60, written out and read back. */
  lemma ReadBack(m: nat, sec: nat)
    requires sec < 60
    ensures ParseClock(Join(m, sec)).Some?
    ensures ParseClock(Join(m, sec)).value == m * 60 + sec
  {
    var mm, ss := TwoDigits(m), TwoDigits(sec);
    ParseJoined(mm, ss);
    var p := ParseFields(mm, ss);
    assert p.Some? && p.value == m * 60 + sec;
  }

  /** Different remaining times never show the same text. */
  lemma ClockInjective(a: nat, b: nat)
    ensures a != b ==> Clock(a) != Clock(b)
  {
  }

  /** The `timer-warning` class: present for the last ten seconds and at 0,
      that is, exactly when the text on display reads 10 seconds or less. */
  function Warning(t: int): (w: bool)
    ensures t >= 0 ==> (w <==> ParseClock(Clock(t)).value <= 10)
  {
    t <= 10
  }
}

=== FILE: Optional.dfy ===
/** A value that may be missing: a failed lookup, an unreadable text, a
    storage key that holds nothing. */
module Optional {
  datatype Option<T> = None | Some(value: T)
}

=== FILE: Pomodoro.dfy ===
/**
  The application state of the pomodoro timer and the handlers that change
  it, without the DOM writes and the interval scheduling: each handler is a
  pure function from the state before the event to the state after it.
 */
module Pomodoro {
  import Tasks
  import Display
  import opened Optional

  /** The module-level variables of the app, gathered into one record. */
  datatype AppState = AppState(
    isRunning: bool,
    isWorkSession: bool,
    timeLeftInSeconds: int,
    workMinutes: int,
    breakMinutes: int,
    completedPomodoros: nat,
    tasks: seq<Tasks.Task>)

  const MinWorkMinutes := 1
  const MaxWorkMinutes := 60
  const MinBreakMinutes := 1
  const MaxBreakMinutes := 30

  /** The state the page starts in: 25 minutes of work, 5 of break, idle. */
  function Initial(): (s: AppState)
    ensures Valid(s) && !s.isRunning && s.isWorkSession
    ensures s.timeLeftInSeconds == FullDuration(s)
    ensures s.completedPomodoros == 0 && s.tasks == []
    ensures s.workMinutes == 25 && s.breakMinutes == 5 && s.timeLeftInSeconds == 1500
  {
    AppState(false, true, 25 * 60, 25, 5, 0, [])
  }

  /** Length in seconds of the session kind the state is in. */
  function FullDuration(s: AppState): int {
    (if s.isWorkSession then s.workMinutes else s.breakMinutes) * 60
  }

  /** The invariant every handler keeps: both lengths within their bounds,
      and the countdown between 0 and the active kind's full length. */
  predicate Valid(s: AppState) {
    && MinWorkMinutes <= s.workMinutes <= MaxWorkMinutes
    && MinBreakMinutes <= s.breakMinutes <= MaxBreakMinutes
    && 0 <= s.timeLeftInSeconds <= FullDuration(s)
  }

  /** The parts of the state no timer handler touches except the tick, which
      may also count a pomodoro. */
  predicate SameSettings(s: AppState, r: AppState) {
    && r.workMinutes == s.workMinutes
    && r.breakMinutes == s.breakMinutes
    && r.tasks == s.tasks
  }

  /** `Math.max(lo, Math.min(hi, v))`. */
  function Clamp(lo: int, hi: int, v: int): (r: int)
    requires lo <= hi
    ensures lo <= r <= hi
    ensures lo <= v <= hi ==> r == v
    ensures v < lo ==> r == lo
    ensures v > hi ==> r == hi
  {
    var m := if hi < v then hi else v;
    if lo > m then lo else m
  }

  /** `toggleTimer`: starts or stops the countdown; nothing else changes. */
  function ToggleTimer(s: AppState): (r: AppState)
    ensures r.isRunning != s.isRunning
    ensures r.(isRunning := s.isRunning) == s
    ensures Valid(s) ==> Valid(r)
  {
    s.(isRunning := !s.isRunning)
  }

  /** `resetTimer`: an idle work session at its full length, whatever the
      state was; lengths, count and tasks are kept. */
  function ResetTimer(s: AppState): (r: AppState)
    ensures !r.isRunning && r.isWorkSession
    ensures r.timeLeftInSeconds == s.workMinutes * 60
    ensures SameSettings(s, r) && r.completedPomodoros == s.completedPomodoros
    ensures Valid(s) ==> Valid(r) && r.timeLeftInSeconds == FullDuration(r)
  {
    s.(isRunning := false, isWorkSession := true, timeLeftInSeconds := s.workMinutes * 60)
  }

  /** `changeSession(direction)`: stops a running timer through `toggleTimer`,
      then flips the session kind and restarts its countdown. The direction
      is not used. */
  function ChangeSession(s: AppState, direction: int): (r: AppState)
    ensures !r.isRunning
    ensures r.isWorkSession == !s.isWorkSession
    ensures r.timeLeftInSeconds == FullDuration(r)
    ensures SameSettings(s, r) && r.completedPomodoros == s.completedPomodoros
    ensures Valid(s) ==> Valid(r)
  {
    var stopped := if s.isRunning then ToggleTimer(s) else s;
    var work := !stopped.isWorkSession;
    stopped.(isWorkSession := work,
             timeLeftInSeconds := if work then stopped.workMinutes * 60 else stopped.breakMinutes * 60)
  }

  /** `adjustWorkLength(change)`: ignored while running; otherwise clamps the
      work length into [1, 60] and, in a work session, restarts the countdown
      at the new length. */
  function AdjustWorkLength(s: AppState, change: int): (r: AppState)
    ensures s.isRunning ==> r == s
    ensures !s.isRunning ==>
              && r.workMinutes == Clamp(MinWorkMinutes, MaxWorkMinutes, s.workMinutes + change)
              && r.timeLeftInSeconds == (if s.isWorkSession then r.workMinutes * 60 else s.timeLeftInSeconds)
              && r.(workMinutes := s.workMinutes, timeLeftInSeconds := s.timeLeftInSeconds) == s
    ensures Valid(s) ==> Valid(r)
  {
    if s.isRunning then s
    else
      var minutes := Clamp(MinWorkMinutes, MaxWorkMinutes, s.workMinutes + change);
      var s' := s.(workMinutes := minutes);
      if s'.isWorkSession then s'.(timeLeftInSeconds := minutes * 60) else s'
  }

  /** `adjustBreakLength(change)`: ignored while running; otherwise clamps the
      break length into [1, 30] and, in a break, restarts the countdown at the
      new length. */
  function AdjustBreakLength(s: AppState, change: int): (r: AppState)
    ensures s.isRunning ==> r == s
    ensures !s.isRunning ==>
              && r.breakMinutes == Clamp(MinBreakMinutes, MaxBreakMinutes, s.breakMinutes + change)
              && r.timeLeftInSeconds == (if !s.isWorkSession then r.breakMinutes * 60 else s.timeLeftInSeconds)
              && r.(breakMinutes := s.breakMinutes, timeLeftInSeconds := s.timeLeftInSeconds) == s
    ensures Valid(s) ==> Valid(r)
  {
    if s.isRunning then s
    else
      var minutes := Clamp(MinBreakMinutes, MaxBreakMinutes, s.breakMinutes + change);
      var s' := s.(breakMinutes := minutes);
      if !s'.isWorkSession then s'.(timeLeftInSeconds := minutes * 60) else s'
  }

  /** `updateTimer`, the interval callback: one second off the countdown, or,
      once it stands at 0, the session boundary: a finished work session is
      counted and `changeSession()` switches kind and stops the timer. */
  function Tick(s: AppState): (r: AppState)
    ensures s.timeLeftInSeconds > 0 ==> r == s.(timeLeftInSeconds := s.timeLeftInSeconds - 1)
    ensures s.timeLeftInSeconds <= 0 ==>
              && !r.isRunning
              && r.isWorkSession == !s.isWorkSession
              && r.timeLeftInSeconds == FullDuration(r)
              && r.completedPomodoros == s.completedPomodoros + (if s.isWorkSession then 1 else 0)
              && SameSettings(s, r)
    ensures Valid(s) ==> Valid(r)
  {
    if s.timeLeftInSeconds > 0 then
      s.(timeLeftInSeconds := s.timeLeftInSeconds - 1)
    else
      var counted := if s.isWorkSession then s.(completedPomodoros := s.completedPomodoros + 1) else s;
      ChangeSession(counted, 0)
  }

  /** What `updateTimerDisplay` shows: the `MM:SS` text and whether the
      `timer-warning` class is set. */
  datatype Readout = Readout(text: string, warning: bool)

  function View(s: AppState): (v: Readout)
    requires s.timeLeftInSeconds >= 0
    ensures Display.ParseClock(v.text) == Some(s.timeLeftInSeconds)
    ensures v.warning <==> s.timeLeftInSeconds <= 10
    ensures s.timeLeftInSeconds <= 3600 ==> |v.text| == 5
  {
    Display.ClockLength(s.timeLeftInSeconds);
    Readout(Display.Clock(s.timeLeftInSeconds), Display.Warning(s.timeLeftInSeconds))
  }

  /** The app opens showing `25:00` without the warning. */
  lemma InitialReadout()
    ensures View(Initial()) == Readout("25:00", false)
  {
    assert Display.DecimalString(2) == "2";
    assert Display.DecimalString(25) == "25";
    assert Display.PadStart("25", 2, '0') == "25";
    assert Display.TwoDigits(25) == "25";
    assert Display.DecimalString(0) == "0";
    assert Display.PadStart("0", 2, '0') == "00" by {
      assert seq(1, _ => '0') == "0";
    }
    assert Display.TwoDigits(0) == "00";
    assert Display.Join(25, 0) == "25:00";
    assert Display.Clock(1500) == "25:00" by {
      assert 1500 / 60 == 25 && 1500 % 60 == 0;
    }
    assert !Display.Warning(1500);
  }

  /** `resetTimer` removes the warning class explicitly; recomputing the
      readout of a valid reset state agrees, since a work session lasts at
      least a minute. */
  lemma ResetClearsWarning(s: AppState)
    requires Valid(s)
    ensures !View(ResetTimer(s)).warning
  {
  }

  /** The direction passed to `changeSession` makes no difference. */
  lemma ChangeSessionIgnoresDirection(s: AppState, d: int, e: int)
    ensures ChangeSession(s, d) == ChangeSession(s, e)
  {
  }

  /** Switching twice returns to the original kind, idle and at full length;
      from a work session that is exactly what `resetTimer` gives. */
  lemma ChangeSessionTwice(s: AppState, d: int, e: int)
    ensures var r := ChangeSession(ChangeSession(s, d), e);
            && r.isWorkSession == s.isWorkSession
            && r == s.(isRunning := false, timeLeftInSeconds := FullDuration(s))
    ensures s.isWorkSession ==> ChangeSession(ChangeSession(s, d), e) == ResetTimer(s)
  {
  }

  /** Starting and then stopping (or the reverse) restores the state. */
  lemma ToggleTimerTwice(s: AppState)
    ensures ToggleTimer(ToggleTimer(s)) == s
  {
  }

  /** An adjustment that stays within the bounds is undone by the opposite
      one; in a fresh session at its full length the whole state comes back. */
  lemma AdjustWorkUndo(s: AppState, change: int)
    requires Valid(s) && !s.isRunning
    requires MinWorkMinutes <= s.workMinutes + change <= MaxWorkMinutes
    ensures AdjustWorkLength(AdjustWorkLength(s, change), -change).workMinutes == s.workMinutes
    ensures s.timeLeftInSeconds == FullDuration(s) ==>
              AdjustWorkLength(AdjustWorkLength(s, change), -change) == s
  {
  }

  lemma AdjustBreakUndo(s: AppState, change: int)
    requires Valid(s) && !s.isRunning
    requires MinBreakMinutes <= s.breakMinutes + change <= MaxBreakMinutes
    ensures AdjustBreakLength(AdjustBreakLength(s, change), -change).breakMinutes == s.breakMinutes
    ensures s.timeLeftInSeconds == FullDuration(s) ==>
              AdjustBreakLength(AdjustBreakLength(s, change), -change) == s
  {
  }
}

=== FILE: Session.dfy ===
/**
  The app as an event-driven machine: every timer and task control and
  every firing of the one-second interval is an event (the theme button is
  modelled apart, in `Theme`), and a run is the state reached by handling
  events in order. The interval exists exactly while the timer is
  running (`toggleTimer` creates and clears it, `resetTimer` clears it), so
  a second that arrives while stopped is never delivered.
 */
module Session {
  import Tasks
  import opened Pomodoro

  import opened Optional

  datatype Event =
    | StartStop
    | Reset
    | SwitchSession(direction: int)
    | AdjustWork(change: int)
    | AdjustBreak(change: int)
    | Second
    | AddTask(text: string, id: int)
    | ToggleTask(id: int)
    | DeleteTask(id: int)

  predicate IsTaskEvent(e: Event) {
    e.AddTask? || e.ToggleTask? || e.DeleteTask?
  }

  /** True when the event is the tick that finds the countdown at 0. */
  predicate AtBoundary(s: AppState, e: Event) {
    e.Second? && s.isRunning && s.timeLeftInSeconds <= 0
  }

  /** Handles one event. Task events touch only the list, the others never
      touch it, and only the boundary tick of a work session counts a
      pomodoro. */
  function Step(s: AppState, e: Event): (r: AppState)
    ensures Valid(s) ==> Valid(r)
    ensures e.Second? && !s.isRunning ==> r == s
    ensures IsTaskEvent(e) ==> r.(tasks := s.tasks) == s
    ensures !IsTaskEvent(e) ==> r.tasks == s.tasks
    ensures r.completedPomodoros
            == s.completedPomodoros + (if AtBoundary(s, e) && s.isWorkSession then 1 else 0)
  {
    match e
    case StartStop => ToggleTimer(s)
    case Reset => ResetTimer(s)
    case SwitchSession(d) => ChangeSession(s, d)
    case AdjustWork(d) => AdjustWorkLength(s, d)
    case AdjustBreak(d) => AdjustBreakLength(s, d)
    case Second => if s.isRunning then Tick(s) else s
    case AddTask(text, id) => s.(tasks := Tasks.Add(s.tasks, text, id))
    case ToggleTask(id) => s.(tasks := Tasks.ToggleCompletion(s.tasks, id))
    case DeleteTask(id) => s.(tasks := Tasks.Delete(s.tasks, id))
  }

  /** What `showNotification` is asked to announce at a boundary. */
  datatype Notice = WorkOver | BreakOver

  /** A notice is raised exactly when the event ends a session, and it is
      followed by the switch to the other kind. A pomodoro is counted exactly
      when the end of a work session is announced. */
  function NoticeOf(s: AppState, e: Event): (n: Option<Notice>)
    ensures n.Some? <==> AtBoundary(s, e)
    ensures n.Some? ==> (n.value == WorkOver <==> s.isWorkSession)
    ensures n.Some? ==> !Step(s, e).isRunning && Step(s, e).isWorkSession != s.isWorkSession
    ensures n.None? && e.Second? ==> Step(s, e).isWorkSession == s.isWorkSession
    ensures Step(s, e).completedPomodoros == s.completedPomodoros + 1 <==> n == Some(WorkOver)
    ensures Step(s, e).completedPomodoros == s.completedPomodoros <==> n != Some(WorkOver)
  {
    if AtBoundary(s, e) then Some(if s.isWorkSession then WorkOver else BreakOver) else None
  }

  /** The state after handling the events in order. */
  function Run(s: AppState, events: seq<Event>): AppState
    decreases |events|
  {
    if events == [] then s else Run(Step(s, events[0]), events[1..])
  }

  /** Running `a` and then `b` is running `a + b`. */
  lemma {:induction false} RunAppend(s: AppState, a: seq<Event>, b: seq<Event>)
    ensures Run(s, a + b) == Run(Run(s, a), b)
    decreases |a|
  {
    if a == [] {
      assert a + b == b;
    } else {
      assert (a + b)[1..] == a[1..] + b;
      RunAppend(Step(s, a[0]), a[1..], b);
    }
  }

  /** No sequence of events breaks the invariant. */
  lemma {:induction false} RunPreservesValid(s: AppState, events: seq<Event>)
    requires Valid(s)
    ensures Valid(Run(s, events))
    decreases |events|
  {
    if events != [] {
      RunPreservesValid(Step(s, events[0]), events[1..]);
    }
  }

  /** Every state the app can reach from the page load is valid. */
  lemma ReachableIsValid(events: seq<Event>)
    ensures Valid(Run(Initial(), events))
  {
    RunPreservesValid(Initial(), events);
  }

  /** The pomodoro count never goes down. */
  lemma {:induction false} CountNeverDecreases(s: AppState, events: seq<Event>)
    ensures Run(s, events).completedPomodoros >= s.completedPomodoros
    decreases |events|
  {
    if events != [] {
      CountNeverDecreases(Step(s, events[0]), events[1..]);
    }
  }

  /** `n` firings of the interval. */
  function Seconds(n: nat): (es: seq<Event>)
    ensures |es| == n && forall i :: 0 <= i < n ==> es[i] == Second
  {
    seq(n, _ => Second)
  }

  lemma SecondsSplit(a: nat, b: nat)
    ensures Seconds(a + b) == Seconds(a) + Seconds(b)
  {
  }

  /** While the countdown has `n` seconds or more left, `n` ticks take
      exactly `n` seconds off and change nothing else. */
  lemma {:induction false} CountDown(s: AppState, n: nat)
    requires s.isRunning && n <= s.timeLeftInSeconds
    ensures Run(s, Seconds(n)) == s.(timeLeftInSeconds := s.timeLeftInSeconds - n)
    decreases n
  {
    if n > 0 {
      assert Seconds(n)[1..] == Seconds(n - 1);
      var next := Step(s, Second);
      assert next == s.(timeLeftInSeconds := s.timeLeftInSeconds - 1);
      CountDown(next, n - 1);
    }
  }

  /** A stopped timer ignores the interval: no tick is delivered. */
  lemma {:induction false} StoppedIgnoresSeconds(s: AppState, n: nat)
    requires !s.isRunning
    ensures Run(s, Seconds(n)) == s
    decreases n
  {
    if n > 0 {
      assert Seconds(n)[1..] == Seconds(n - 1);
      StoppedIgnoresSeconds(s, n - 1);
    }
  }

  /** From a running session with `t` seconds left, `t` ticks reach `00:00`
      still running, and tick `t + 1` is the boundary: the kind flips, the
      countdown restarts at the new kind's length, a finished work session is
      counted, and the timer is left stopped. */
  lemma SessionBoundary(s: AppState)
    requires Valid(s) && s.isRunning
    ensures Run(s, Seconds(s.timeLeftInSeconds)) == s.(timeLeftInSeconds := 0)
    ensures var r := Run(s, Seconds(s.timeLeftInSeconds + 1));
            && !r.isRunning
            && r.isWorkSession == !s.isWorkSession
            && r.timeLeftInSeconds == FullDuration(r)
            && r.completedPomodoros == s.completedPomodoros + (if s.isWorkSession then 1 else 0)
            && r.workMinutes == s.workMinutes && r.breakMinutes == s.breakMinutes
            && r.tasks == s.tasks
  {
    var n := s.timeLeftInSeconds;
    CountDown(s, n);
    var atZero := Run(s, Seconds(n));
    SecondsSplit(n, 1);
    RunAppend(s, Seconds(n), Seconds(1));
    assert Run(atZero, Seconds(1)) == Step(atZero, Second);
  }

  /** After the boundary the timer stays stopped: any further seconds of the
      old interval are not delivered. */
  lemma StopsAtBoundary(s: AppState, k: nat)
    requires Valid(s) && s.isRunning
    ensures Run(s, Seconds(s.timeLeftInSeconds + 1 + k))
            == Run(s, Seconds(s.timeLeftInSeconds + 1))
  {
    var n := s.timeLeftInSeconds + 1;
    SessionBoundary(s);
    var stopped := Run(s, Seconds(n));
    assert !stopped.isRunning;
    StoppedIgnoresSeconds(stopped, k);
    SecondsSplit(n, k);
    RunAppend(s, Seconds(n), Seconds(k));
  }

  /** From page load: start, and 1500 seconds later the clock shows `00:00`
      in the same work session; one more second ends it, counts the first
      pomodoro, and leaves an idle five-minute break. */
  lemma FirstPomodoro()
    ensures var atZero := Run(Initial(), [StartStop] + Seconds(1500));
            && atZero.isWorkSession && atZero.isRunning
            && atZero.timeLeftInSeconds == 0 && atZero.completedPomodoros == 0
    ensures var r := Run(Initial(), [StartStop] + Seconds(1501));
            && !r.isWorkSession && !r.isRunning
            && r.timeLeftInSeconds == 300 && r.completedPomodoros == 1
  {
    var started := Initial().(isRunning := true);
    assert Step(Initial(), StartStop) == started;
    assert [StartStop][1..] == [];
    assert Run(Initial(), [StartStop]) == started;
    RunAppend(Initial(), [StartStop], Seconds(1500));
    RunAppend(Initial(), [StartStop], Seconds(1501));
    SessionBoundary(started);
    var r := Run(started, Seconds(1501));
    assert r.breakMinutes == 5 && !r.isWorkSession;
    assert r.timeLeftInSeconds == FullDuration(r) == 300;
  }
}

=== FILE: Tasks.dfy ===
/**
  The task list of the pomodoro app: an ordered sequence of tasks that is
  extended by a trimmed text, and whose entries are toggled or deleted by id.
  Lookups act on the FIRST task carrying the id, as `Array.prototype.find`
  and `Array.prototype.findIndex` do; ids are not assumed to be unique.
 */
module Tasks {

  import opened Optional

  /** One entry of the list; `id` is the creation timestamp in the app. */
  datatype Task = Task(id: int, text: string, completed: bool)

  /** The characters `String.prototype.trim` removes: the WhiteSpace and
      LineTerminator code points of ECMA-262 (sections 12.2 and 12.3). */
  predicate IsWhitespace(c: char) {
    || c == '\t' || c == '\n' || c == '\U{000B}' || c == '\U{000C}' || c == '\r'
    || c == ' ' || c == '\U{00A0}' || c == '\U{1680}'
    || ('\U{2000}' <= c <= '\U{200A}')
    || c == '\U{2028}' || c == '\U{2029}' || c == '\U{202F}' || c == '\U{205F}'
    || c == '\U{3000}' || c == '\U{FEFF}'
  }

  predicate AllWhitespace(s: string) {
    forall i :: 0 <= i < |s| ==> IsWhitespace(s[i])
  }

  /** Index of the first character at or after `i` that is not whitespace
      (`|s|` when there is none). */
  function SkipLeading(s: string, i: nat): (k: nat)
    requires i <= |s|
    ensures i <= k <= |s|
    ensures forall j :: i <= j < k ==> IsWhitespace(s[j])
    ensures k < |s| ==> !IsWhitespace(s[k])
    decreases |s| - i
  {
    if i < |s| && IsWhitespace(s[i]) then SkipLeading(s, i + 1) else i
  }

  /** End of the text in `s[lo..hi]` once trailing whitespace is dropped. */
  function SkipTrailing(s: string, lo: nat, hi: nat): (k: nat)
    requires lo <= hi <= |s|
    ensures lo <= k <= hi
    ensures forall j :: k <= j < hi ==> IsWhitespace(s[j])
    ensures k > lo ==> !IsWhitespace(s[k - 1])
    decreases hi
  {
    if hi > lo && IsWhitespace(s[hi - 1]) then SkipTrailing(s, lo, hi - 1) else hi
  }

  /** `r` is a run of `s` with only whitespace before and after it. */
  ghost predicate IsTrimmedSlice(r: string, s: string) {
    exists k :: TrimmedAt(r, s, k)
  }

  /** `r` starts at index `k` of `s`, with only whitespace around it. */
  ghost predicate TrimmedAt(r: string, s: string, k: int) {
    && 0 <= k && k + |r| <= |s| && r == s[k..k + |r|]
    && (forall j :: 0 <= j < k ==> IsWhitespace(s[j]))
    && (forall j :: k + |r| <= j < |s| ==> IsWhitespace(s[j]))
  }

  /** `String.prototype.trim`: the text between the leading and the trailing
      whitespace. It is empty exactly when the input is all whitespace. */
  function Trim(s: string): (r: string)
    ensures r == [] <==> AllWhitespace(s)
    ensures r != [] ==> !IsWhitespace(r[0]) && !IsWhitespace(r[|r| - 1])
    ensures IsTrimmedSlice(r, s)
  {
    var a := SkipLeading(s, 0);
    var b := SkipTrailing(s, a, |s|);
    assert a == b ==> forall j :: 0 <= j < |s| ==> IsWhitespace(s[j]);
    assert TrimmedAt(s[a..b], s, a);
    s[a..b]
  }

  /** Trimming is idempotent. */
  lemma TrimIdempotent(s: string)
    ensures Trim(Trim(s)) == Trim(s)
  {
    var t := Trim(s);
    if t != [] {
      assert SkipLeading(t, 0) == 0;
      assert SkipTrailing(t, 0, |t|) == |t|;
      assert t[0..|t|] == t;
    }
  }

  /** Index of the first task with the given id, as `findIndex` computes it
      (None standing for -1). */
  function FindFirst(tasks: seq<Task>, id: int): (r: Option<nat>)
    ensures r.None? <==> forall j :: 0 <= j < |tasks| ==> tasks[j].id != id
    ensures r.Some? ==> r.value < |tasks| && tasks[r.value].id == id
                        && forall j :: 0 <= j < r.value ==> tasks[j].id != id
  {
    if |tasks| == 0 then None
    else if tasks[0].id == id then Some(0)
    else match FindFirst(tasks[1..], id)
      case None => None
      case Some(k) => Some(k + 1)
  }

  /** `addTask`: nothing happens when the trimmed text is empty; otherwise
      one open task with the trimmed text is appended after the others. */
  function Add(tasks: seq<Task>, text: string, id: int): (r: seq<Task>)
    ensures r == tasks <==> AllWhitespace(text)
    ensures !AllWhitespace(text) ==>
              && |r| == |tasks| + 1
              && r[..|tasks|] == tasks
              && r[|tasks|].id == id
              && r[|tasks|].text == Trim(text) && r[|tasks|].text != []
              && !r[|tasks|].completed
  {
    var taskText := Trim(text);
    if taskText != [] then tasks + [Task(id, taskText, false)] else tasks
  }

  /** `toggleTaskCompletion`: flips `completed` of the first task with the
      id and of no other; an unknown id changes nothing. */
  function ToggleCompletion(tasks: seq<Task>, id: int): (r: seq<Task>)
    ensures |r| == |tasks|
    ensures (forall j :: 0 <= j < |tasks| ==> tasks[j].id != id) ==> r == tasks
    ensures forall i :: 0 <= i < |tasks| ==>
              && r[i].id == tasks[i].id && r[i].text == tasks[i].text
              && (r[i].completed != tasks[i].completed <==>
                    tasks[i].id == id && forall j :: 0 <= j < i ==> tasks[j].id != id)
  {
    match FindFirst(tasks, id)
    case None => tasks
    case Some(i) => tasks[i := tasks[i].(completed := !tasks[i].completed)]
  }

  /** Toggling the same id twice restores the list. */
  lemma ToggleInvolution(tasks: seq<Task>, id: int)
    ensures ToggleCompletion(ToggleCompletion(tasks, id), id) == tasks
  {
    var once := ToggleCompletion(tasks, id);
    var twice := ToggleCompletion(once, id);
    forall i | 0 <= i < |tasks|
      ensures twice[i] == tasks[i]
    {
      assert once[i].id == tasks[i].id;
      assert (forall j :: 0 <= j < i ==> once[j].id != id)
         <==> (forall j :: 0 <= j < i ==> tasks[j].id != id) by {
        forall j | 0 <= j < i ensures once[j].id == tasks[j].id { }
      }
    }
  }

  /** `deleteTask`: removes the first task with the id, keeping the others in
      order; an unknown id changes nothing. */
  function Delete(tasks: seq<Task>, id: int): (r: seq<Task>)
    ensures (forall j :: 0 <= j < |tasks| ==> tasks[j].id != id) ==> r == tasks
    ensures FindFirst(tasks, id).Some? ==>
              var i := FindFirst(tasks, id).value;
              && |r| == |tasks| - 1
              && (forall j :: 0 <= j < i ==> r[j] == tasks[j])
              && (forall j :: i <= j < |r| ==> r[j] == tasks[j + 1])
  {
    match FindFirst(tasks, id)
    case None => tasks
    case Some(i) => tasks[..i] + tasks[i + 1..]
  }

  /** What `deleteTask` removes is exactly one task, the one with the id. */
  lemma DeleteRemovesOne(tasks: seq<Task>, id: int)
    requires FindFirst(tasks, id).Some?
    ensures multiset(Delete(tasks, id)) + multiset{tasks[FindFirst(tasks, id).value]}
            == multiset(tasks)
  {
    var i := FindFirst(tasks, id).value;
    assert Delete(tasks, id) == tasks[..i] + tasks[i + 1..];
    RemoveAt(tasks, i);
  }

  lemma RemoveAt(xs: seq<Task>, i: nat)
    requires i < |xs|
    ensures multiset(xs[..i] + xs[i + 1..]) + multiset{xs[i]} == multiset(xs)
  {
    assert xs == xs[..i] + [xs[i]] + xs[i + 1..];
  }

  /** Adding a task with a fresh id and then deleting that id gives back the
      list it was added to. */
  lemma AddThenDelete(tasks: seq<Task>, text: string, id: int)
    requires forall j :: 0 <= j < |tasks| ==> tasks[j].id != id
    ensures Delete(Add(tasks, text, id), id) == tasks
  {
    if !AllWhitespace(text) {
      var added := Add(tasks, text, id);
      assert FindFirst(added, id) == Some(|tasks|);
      var r := Delete(added, id);
      assert |r| == |tasks|;
      assert forall j :: 0 <= j < |r| ==> r[j] == added[j] == tasks[j];
    }
  }
}

=== FILE: Theme.dfy ===
/**
  The light/dark preference: chosen at start-up from the stored value or,
  when nothing is stored, from the system colour scheme; flipped by the
  theme button, which stores the new mode under the `theme` key.
 */
module Theme {

  import opened Optional

  /** The start-up choice of `init`: dark when the stored value is `dark`,
      or when nothing usable is stored (absent, or the empty string, which
      is falsy) and the system prefers dark. */
  function StartsDark(stored: Option<string>, prefersDark: bool): (dark: bool)
    ensures stored == Some("dark") ==> dark
    ensures stored.Some? && stored.value != "" && stored.value != "dark" ==> !dark
    ensures (stored == None || stored == Some("")) ==> (dark <==> prefersDark)
  {
    stored == Some("dark") || ((stored == None || stored == Some("")) && prefersDark)
  }

  /** The page mode after a toggle and the value written to storage. */
  datatype Toggled = Toggled(dark: bool, saved: string)

  /** `toggleTheme`: flips the mode and records it as `dark` or `light`. */
  function Toggle(dark: bool): (r: Toggled)
    ensures r.dark != dark
    ensures r.saved == "dark" || r.saved == "light"
    ensures r.saved == "dark" <==> r.dark
  {
    var now := !dark;
    Toggled(now, if now then "dark" else "light")
  }

  /** Toggling twice gives back the original mode. */
  lemma ToggleTwice(dark: bool)
    ensures Toggle(Toggle(dark).dark).dark == dark
  {
  }

  /** What a toggle stores is what the next start-up restores, whatever the
      system prefers: the stored value and the start-up rule agree. */
  lemma SavedModeRestored(dark: bool, prefersDark: bool)
    ensures StartsDark(Some(Toggle(dark).saved), prefersDark) == Toggle(dark).dark
  {
  }
}
